=== FILE: README.md ===
# KiddyPaint undo/redo history and stroke machine, in Dafny

This project models the core of KiddyPaint's drawing surface (`script.js`). It covers two parts:

- The bounded undo/redo history. The globals `history` (a list of full-canvas snapshots) and `historyStep` (a cursor that is -1 while the list is empty) live here, together with the live canvas that a restored snapshot is painted back onto.
- The pointer-stroke state machine (`isDrawing`, `lastX`, `lastY`). It decides which segment each mouse-move paints and when a finished stroke is committed as a snapshot.

Three modules make up the model:

- `Stroke` (`stroke.dfy`) holds the pen, the live toolbar settings and the segment each move emits. A segment is an abstract record: from-point, to-point, colour, width and compositing mode.
- `History` (`history.dfy`) holds `Board<F>`: the canvas, the snapshots and the cursor. It defines `saveState`, `restoreState`, `initCanvas`, `undo` and `redo` as pure functions. A snapshot is an opaque value of type `F`, the same type as the live canvas. Capturing the canvas yields its current value, and restoring a snapshot makes that snapshot the canvas. Capture and restore are therefore exact inverses; "## Left out" says where the canvas guarantees less.
- `Editor` (`editor.dfy`) holds the whole state and one transition per event handler. `Run` replays any sequence of events. The rasteriser that paints a segment onto the canvas is a parameter `paint: (F, Segment) -> F`.

Behaviour worth noting, as the code has it:

- `initCanvas` does not clear the history. It paints the canvas white and commits, so calling it at the newest snapshot of a non-empty history below the capacity appends to it (`History.InitCanvas`).
- A viewport resize does not reinitialise the history.
- After the first snapshot and N commits, the history holds `Min(N + 1, 50)` snapshots (`History.InitThenCommits`). It does not hold N + 1 for every N up to the capacity: at N = 50 it holds 50.
- Tool, colour and widths are read live at every mouse-move, not fixed at mouse-down (`Editor.Draw`).
- Mouse-out during a stroke commits it exactly like mouse-up (`Editor.StrokeCommitsOnce`, `Editor.ReleasesAgree`).
- The compositing mode a segment sets stays on the 2D context after the stroke. The image handlers never reset it, so an image loaded right after erasing is drawn in cut-out mode (see "## Findings"). `Editor.Step` is the page as written. `Editor.StepCorrected` is the page with the image handlers corrected.
- The pointer and toolbar listeners are attached when the script runs, before the window load event. Events may therefore arrive before `Editor.Load`, and the load-time resize resets the compositing mode to normal.

`saveState` is modelled on every board, including boards that violate the cursor invariant. The call `slice(0, historyStep + 1)` follows JavaScript's rules for a negative end index (`History.SliceEnd`). Properties that rely on the invariant are stated under `Valid` (the cursor invariant) and `Bounded` (at most 50 snapshots). `Editor.RunPreserves` proves that every sequence of events keeps both. `Editor.Reachable` adds `Synced`: when no stroke is in progress, the canvas shows the snapshot under the cursor. The page starts in this invariant, the load handler keeps it (`Editor.LoadReachable`, `Editor.LoadKeepsReachable`), and every sequence of events keeps it (`Editor.RunKeepsReachable`). As a result, the undo/redo round trips hold in every idle state the page reaches, with any events before and after the load event and no resize (`Editor.ReachedUndoRedo`). For snapshots taken before the load event, `Synced` is exact only over the snapshot's own rectangle (see the layout line under "## Left out").

## Model

| member | source | states |
|---|---|---|
| `History.SliceEnd` | script.js:38 | The cut point of `slice(0, end)` never exceeds the length. An in-range end is taken as is, and an end beyond the length keeps everything. A negative end drops that many elements from the back, or all of them. |
| `History.Empty` | script.js:33-34 | The page starts with no snapshots and cursor -1, which satisfies the cursor invariant and the capacity bound. |
| `History.SaveState` | script.js:36-47 | After a commit the cursor is on the last snapshot, and that snapshot is the captured canvas, even when an eviction happened. From a valid board, the snapshots before the new cursor are the newest of the old ones up to and including the old cursor, so nothing beyond the old cursor survives. The cursor advances by exactly one unless an eviction happened. The length never grows past `Max(old length, 50)`. A bounded board stays bounded and holds `Min(step + 2, 50)` snapshots. |
| `History.RestoreState` | script.js:49-54 | The snapshot list never changes. An in-range target becomes the cursor, and the canvas then shows that snapshot. An out-of-range target changes nothing. The cursor invariant is preserved. |
| `History.InitCanvas` | script.js:56-60 | The canvas becomes white and is the snapshot under the cursor. From the empty history the result is exactly one white snapshot with cursor 0. At the newest snapshot of a history below the capacity, the list is kept and the white canvas is appended, with the cursor on it. |
| `History.Undo` | script.js:120-127 | Undo succeeds exactly when the cursor is above 0, and it never changes the list. On success with a valid board, the cursor moves back by exactly one and the canvas shows that snapshot. Otherwise the notice is "nothing to undo" and the board is unchanged. |
| `History.Redo` | script.js:129-136 | Redo succeeds exactly when the cursor is below the last index, and it never changes the list. On success with a valid board, the cursor moves forward by exactly one and the canvas shows that snapshot. Otherwise the notice is "nothing to redo" and the board is unchanged. |
| `History.UndoThenRedo` | script.js:120-136 | On a board whose canvas shows the snapshot under the cursor (`Synced`), a successful undo followed by a redo restores the exact board that was shown, cursor and canvas included. |
| `History.RedoThenUndo` | script.js:120-136 | On a board whose canvas shows the snapshot under the cursor (`Synced`), a successful redo followed by an undo restores the exact board that was shown. |
| `History.SaveDropsRedo` | script.js:37-42 | Right after any commit, redo fails and changes nothing. |
| `History.UndoThenSave` | script.js:37-42 | A commit after an undo leaves exactly the snapshots up to the new cursor plus the new canvas. The undone snapshot is gone. |
| `History.SaveAtTip` | script.js:40-42 | A commit from the newest snapshot below the capacity appends the canvas and advances the cursor onto it. |
| `History.SaveThenUndo` | script.js:43-46 | When the canvas shows the cursor's snapshot, a commit followed by an undo succeeds and shows the earlier canvas again. This holds even when the commit evicted the oldest snapshot. |
| `History.SaveKeepsNewest` | script.js:40-46 | A commit from the newest snapshot of a valid, bounded history leaves the last 50 entries of the old snapshots followed by the new canvas, and the history stays valid and bounded. |
| `History.CommitAllKeepsNewest` | script.js:43-46 | Repeated commits from the newest snapshot keep exactly the newest 50 canvases, oldest first and evicted first-in-first-out, with the cursor on the last one. |
| `History.InitThenCommits` | script.js:56-60 | After the first white snapshot and N commits, the history is the last `Min(N + 1, 50)` of the white canvas followed by the committed canvases. |
| `Stroke.Start` | script.js:90-93 | Mouse-down makes a stroke active at the pressed point. |
| `Stroke.SegmentFor` | script.js:100-108 | A segment runs between the given points. The brush uses the chosen colour, the brush width and normal compositing. The eraser uses the eraser width and cut-out compositing. |
| `Stroke.EraserIgnoresColor` | script.js:104-107 | An eraser segment is the same whatever colour and brush width are chosen, and it always cuts out. |
| `Stroke.Advance` | script.js:95-111 | A move emits a segment exactly when a stroke is active. The segment starts at the last point and ends at the new point, which then becomes the last point. |
| `Stroke.Stop` | script.js:113-118 | Release ends the stroke and asks for a commit exactly when a stroke was active. Without an active stroke the pen is unchanged. |
| `Stroke.Trace` | script.js:95-111 | During a stroke, a run of moves emits one segment per point. The segments form a chain: the first starts at the pen's last point, and each later one starts where the previous one ended. The pen ends at the final point. Without a stroke nothing is emitted. |
| `Editor.Initial` | script.js:26-34 | Before loading there are no snapshots, the cursor invariant holds, no stroke is active, and compositing is normal. |
| `Editor.Load` | script.js:322-328 | The load event leaves the white canvas shown as the snapshot under the cursor. From a page with no snapshots, that is exactly one white snapshot with cursor 0. The compositing mode is normal afterwards, because the earlier layout listener resizes the canvas (script.js:23, 6-7). The pen and settings are unchanged. |
| `Editor.StartDrawing` | script.js:90-93 | Mouse-down starts a stroke at the pressed point and touches neither the history nor the canvas. |
| `Editor.Draw` | script.js:95-111 | A mouse-move without an active stroke changes nothing. During a stroke it paints the segment from the last point with the settings current at that moment, and advances the last point. The segment's compositing mode stays set on the context. The history is never touched. |
| `Editor.StopDrawing` | script.js:113-118 | Mouse-up or mouse-out commits the canvas once when a stroke is active. Otherwise it changes nothing. Afterwards no stroke is active. |
| `Editor.LoadImage` | script.js:260-267 | As written: the image is placed under whatever compositing mode the context was left in, and that canvas is committed like a stroke. Afterwards the canvas shows the newest snapshot, which is under the cursor. The mode is not reset. |
| `Editor.LoadImageReset` | script.js:286-292 | Corrected: the image is placed under normal compositing and committed, and the mode is normal afterwards. Pen and settings are unchanged, and the canvas shows the newest snapshot. |
| `Editor.StepCorrected` | script.js:260-266 | The corrected page: every event except an image load behaves exactly as in `Editor.Step`. An image load behaves as `Editor.Step` would after resetting the mode to normal, so it commits the normally placed image and leaves the mode normal. |
| `Editor.EraserThenLoadImage` | script.js:260-266 | With the eraser selected, the events press, move, release and image load commit the cut-out placement of the image and leave the mode cut-out. On the corrected page the last event commits the normal placement and leaves the mode normal. |
| `Editor.LoadImageResetIgnoresMode` | script.js:286-292 | The corrected load commits the same history from any two states with the same board, whatever tool or mode came before. |
| `Editor.Step` | script.js:62-68 | Mouse-up and mouse-out both end the stroke. Mouse-down, mouse-move and toolbar changes never touch the snapshots or the cursor. Undo and redo change only the board, exactly as `History.Undo`/`History.Redo` do. An image load commits the image placed under the current compositing mode, shows it under the cursor and keeps the mode. Only a toolbar change alters the settings. |
| `Editor.ReleasesAgree` | script.js:64-65 | Mouse-up and mouse-out give the same state. Both commit exactly when a stroke is active. |
| `Editor.StepPreserves` | script.js:62-68 | Every event handler preserves the cursor invariant and the capacity bound. |
| `Editor.RunPreserves` | script.js:33-34 | Every sequence of events preserves the cursor invariant and the capacity bound. |
| `Editor.LoadReachable` | script.js:322-328 | The page starts with a valid, empty history. After the load event the history is valid and bounded, and the canvas shows the snapshot under the cursor. |
| `Editor.LoadKeepsReachable` | script.js:322-328 | Whatever events came before it, the load event leaves a valid, bounded history whose canvas shows the snapshot under the cursor. |
| `Editor.StepKeepsReachable` | script.js:62-68 | Every event keeps the history valid and bounded, and keeps the canvas on the snapshot under the cursor whenever no stroke is in progress. This holds on the page as written and on the corrected page. |
| `Editor.RunKeepsReachable` | script.js:62-68 | Every sequence of events keeps that invariant. |
| `Editor.ReachedUndoRedo` | script.js:120-136 | In every idle state reached by any events, then the load event, then any events, a successful undo then redo, or redo then undo, restores the exact board that was shown. |
| `Editor.MovesPaintTrace` | script.js:95-111 | A run of mouse-moves paints exactly the traced segments, in order. It advances the pen as the trace does and leaves the history and the settings unchanged. |
| `Editor.StrokeCommitsOnce` | script.js:113-118 | A stroke of press, any number of moves, then mouse-up or mouse-out equals one commit of the stroked canvas on the board from before the stroke. A further mouse-up or mouse-out then changes nothing. |
| `Editor.StrokeAddsOneEntry` | script.js:113-118 | From a valid, bounded history, a stroke leaves `Min(step + 2, 50)` snapshots: one more than the kept ones, or the capacity after an eviction. |
| `Editor.StrokeAtTip` | script.js:113-118 | A stroke from the newest snapshot below the capacity appends the stroked canvas and moves the cursor onto it. |
| `Editor.TwoStrokesThenUndo` | script.js:120-127 | After loading, stroke A, stroke B and three undos: the first two undos succeed, the first showing the canvas after A and the second the white canvas, and the third has nothing to undo. |

## Left out

- Layout and resizing (`resizeCanvas`, `adjustLayout`, script.js:5-24): DOM geometry. Assigning `canvas.width`/`canvas.height` (script.js:6-7) clears the live canvas and resets the context, including the compositing mode. The history is kept. So any resize breaks `Synced`, including the one at the load event itself (script.js:23, 20, 6-7): the canvas is blank until the next undo, redo or commit. The model has no resize event, and `Editor.Reachable` holds only for event sequences without one. A snapshot taken before the load event has the canvas size from before layout. The load-time resize changes that size, and undoing into such a snapshot repaints only its own rectangle through `putImageData` (script.js:52), leaving the rest of the canvas white. For such snapshots, `Synced` and the round trips in `Editor.ReachedUndoRedo` describe only that rectangle. Strokes before the load event are also drawn with the context's default miter joins and butt caps, because the round joins and caps are set only in `resizeCanvas` (script.js:8-9). The model uses one `paint` for every stroke.
- Touch handlers: they only re-dispatch the primary touch as mouse-down and mouse-move, and touch-end calls the same `stopDrawing`. The model receives the resulting mouse events directly.
- `showStatus` and its timer: undo and redo return a `Notice` instead of showing a message.
- Toolbar, slider and panel toggles, the colour palette and the gallery: the only effect that reaches the core is a change of tool, colour or width, modelled as the `Configure` event. The raw slider value is modelled as an integer width, though the source stores the slider's string.
- File reading and image decoding callbacks, and the contain-fit placement arithmetic: these are asynchronous browser I/O and floating point. `Editor.LoadImage` takes the image's placement as a function from the compositing mode to the resulting canvas. The clear before it is part of that placement.
- Pixel rasterisation and compositing (`stroke`, `getImageData`, `putImageData`, `drawImage`): foreign canvas calls. Stroking is represented by the `paint` parameter. `drawImage` is represented by the `placed` argument of the `ImageLoaded` event. Snapshots are the opaque type `F`. `getImageData`/`putImageData` are not affected by the compositing mode.
- Snapshot fidelity: snapshots are taken to round-trip losslessly through `getImageData` (script.js:40) and `putImageData` (script.js:52). The canvas guarantees this only for opaque pixels. Translucent pixels, such as the eraser's cut-out edges (script.js:107), may come back changed because of premultiplied alpha. So `History.UndoThenRedo`, `History.RedoThenUndo` and `Editor.ReachedUndoRedo` promise exact boards under that assumption only.
- Pointer coordinates are integers; the browser's `offsetX`/`offsetY` may be fractional.
- A tool other than brush or eraser cannot be selected in the source, so `Tool` has only those two.
- Export via `toDataURL` and the scroll-driven footer: I/O and presentation.

## Findings

| source | as written | input that shows it | evidently intended | confidence | as-written member | corrected member |
|---|---|---|---|---|---|---|
| script.js:260-266, script.js:286-292 | The image handlers clear the canvas and call `drawImage` without resetting `globalCompositeOperation`, which the last eraser segment left at `destination-out` (script.js:104-107). | Press, move once with the eraser, release, then load an image from the gallery or a file. The image is drawn in cut-out mode onto a cleared canvas, and the committed snapshot is the cut-out placement, which is blank. | The image is drawn normally (`source-over`), whatever tool was used last. | medium, not executed | `Editor.LoadImage` (with `Editor.EraserThenLoadImage`) | `Editor.LoadImageReset` (with `Editor.LoadImageResetIgnoresMode`), used by `Editor.StepCorrected` |

=== FILE: editor.dfy ===
/** The whole drawing surface as the event handlers see it: the history board,
    the pen, the live settings and the compositing mode the 2D context was
    last left in. Every handler is a pure transition on this state. Painting a
    segment onto the canvas is the foreign rasteriser and is a parameter
    `paint`. */
module Editor {
  import History
  import opened Stroke

  /** `mode` is the context's `globalCompositeOperation`: every segment sets it
      and it outlives the stroke; only the load-time resize resets it. */
  datatype State<F> = State(board: History.Board<F>, pen: Pen, settings: Settings, mode: Composite)

  /** The events that reach the core: pointer input (touch input arrives as
      the same mouse events), the undo and redo buttons, a decoded image
      placed on the cleared canvas, and a toolbar change of tool, colour or
      width. The image is given by the canvas its contain-fit placement leaves
      under each compositing mode. */
  datatype Event<F> =
    | MouseDown(at: Point)
    | MouseMove(to: Point)
    | MouseUp
    | MouseOut
    | UndoClick
    | RedoClick
    | ImageLoaded(placed: Composite -> F)
    | Configure(settings: Settings)

  /** The state before the page's load handler runs. */
  function Initial<F>(canvas: F): (s: State<F>)
    ensures History.Valid(s.board) && |s.board.frames| == 0
    ensures !s.pen.isDrawing && s.mode == SourceOver
  {
    State(History.Empty(canvas), InitialPen, InitialSettings, SourceOver)
  }

  /** The window load event: the layout listener resizes the canvas, which
      resets the context to normal compositing, and the later listener paints
      the canvas white and records the first snapshot. Pointer and toolbar
      listeners are attached earlier, so events may come before it. */
  function Load<F>(s: State<F>, white: F): (r: State<F>)
    ensures History.Valid(s.board) && |s.board.frames| == 0 ==> r.board == History.Board(white, [white], 0)
    ensures History.Synced(r.board) && r.board.canvas == white
    ensures r.pen == s.pen && r.settings == s.settings && r.mode == SourceOver
  {
    s.(board := History.InitCanvas(s.board, white), mode := SourceOver)
  }

  /** Mouse-down: a stroke starts at `p`; nothing is painted or recorded. */
  function StartDrawing<F>(s: State<F>, p: Point): (r: State<F>)
    ensures r.board == s.board && r.settings == s.settings && r.mode == s.mode
    ensures r.pen.isDrawing && r.pen.last == p
  {
    s.(pen := Start(s.pen, p))
  }

  /** Mouse-move: without an active stroke nothing changes; otherwise the
      segment from the last point to `p` is painted with the settings current
      at this moment, its compositing mode stays set on the context, `p`
      becomes the last point, and the history is untouched. */
  function Draw<F>(s: State<F>, p: Point, paint: (F, Segment) -> F): (r: State<F>)
    ensures !s.pen.isDrawing ==> r == s
    ensures r.board.frames == s.board.frames && r.board.step == s.board.step && r.settings == s.settings
    ensures s.pen.isDrawing ==> r.pen == Pen(true, p)
    ensures s.pen.isDrawing ==> r.board.canvas == paint(s.board.canvas, SegmentFor(s.settings, s.pen.last, p))
    ensures s.pen.isDrawing ==> r.mode == (if s.settings.tool == Eraser then DestinationOut else SourceOver)
  {
    match Advance(s.pen, s.settings, p)
    case Ignored => s
    case Drew(seg, next) => s.(pen := next, board := s.board.(canvas := paint(s.board.canvas, seg)), mode := seg.mode)
  }

  /** Mouse-up or mouse-out: an active stroke ends and its canvas is committed
      once; when no stroke is active nothing changes. */
  function StopDrawing<F>(s: State<F>): (r: State<F>)
    ensures !r.pen.isDrawing && r.settings == s.settings && r.mode == s.mode
    ensures s.pen.isDrawing ==> r.board == History.SaveState(s.board)
    ensures !s.pen.isDrawing ==> r == s
  {
    var release := Stop(s.pen);
    if release.commit then s.(pen := release.pen, board := History.SaveState(s.board))
    else s
  }

  /** An image loaded from the gallery or a file, as written: the canvas is
      cleared and the image drawn under whatever compositing mode the last
      segment left on the context, and that canvas is committed. After an
      eraser segment the mode is still `DestinationOut`. */
  function LoadImage<F>(s: State<F>, placed: Composite -> F): (r: State<F>)
    ensures r.pen == s.pen && r.settings == s.settings && r.mode == s.mode
    ensures r.board == History.SaveState(s.board.(canvas := placed(s.mode)))
    ensures History.Synced(r.board) && r.board.canvas == placed(s.mode) && r.board.step == |r.board.frames| - 1
  {
    s.(board := History.SaveState(s.board.(canvas := placed(s.mode))))
  }

  /** An image load with the compositing mode reset to `SourceOver` before the
      image is drawn, as the handlers evidently intend: the committed canvas
      is the image placed normally, whatever was drawn before. */
  function LoadImageReset<F>(s: State<F>, placed: Composite -> F): (r: State<F>)
    ensures r.pen == s.pen && r.settings == s.settings && r.mode == SourceOver
    ensures r.board == History.SaveState(s.board.(canvas := placed(SourceOver)))
    ensures History.Synced(r.board) && r.board.canvas == placed(SourceOver) && r.board.step == |r.board.frames| - 1
  {
    LoadImage(s.(mode := SourceOver), placed)
  }

  /** The corrected load commits the same history whatever strokes, tools or
      modes came before it: only the board matters. */
  lemma LoadImageResetIgnoresMode<F>(s: State<F>, t: State<F>, placed: Composite -> F)
    requires s.board == t.board
    ensures LoadImageReset(s, placed).board == LoadImageReset(t, placed).board
  {
  }

  /** One event, dispatched as the listeners are wired: mouse-up and mouse-out
      both end the stroke, the toolbar buttons undo and redo, and an image
      load commits the image placed under the current compositing mode. Only
      a release, an undo, a redo or an image load can touch the history, and
      only a toolbar change touches the settings. */
  function Step<F>(s: State<F>, e: Event<F>, paint: (F, Segment) -> F): (r: State<F>)
    ensures e.MouseUp? || e.MouseOut? ==> r == StopDrawing(s)
    ensures e.MouseDown? || e.MouseMove? || e.Configure? ==> r.board.frames == s.board.frames && r.board.step == s.board.step
    ensures e.UndoClick? ==> r.board == History.Undo(s.board).board && r.pen == s.pen && r.mode == s.mode
    ensures e.RedoClick? ==> r.board == History.Redo(s.board).board && r.pen == s.pen && r.mode == s.mode
    ensures e.ImageLoaded? ==> r.board.canvas == e.placed(s.mode) && History.Synced(r.board) && r.mode == s.mode
    ensures !e.Configure? ==> r.settings == s.settings
  {
    match e
    case MouseDown(p) => StartDrawing(s, p)
    case MouseMove(p) => Draw(s, p, paint)
    case MouseUp => StopDrawing(s)
    case MouseOut => StopDrawing(s)
    case UndoClick => s.(board := History.Undo(s.board).board)
    case RedoClick => s.(board := History.Redo(s.board).board)
    case ImageLoaded(placed) => LoadImage(s, placed)
    case Configure(settings) => s.(settings := settings)
  }

  /** One event on the page with the image handlers corrected: every event
      but an image load is handled as written, and an image load resets the
      compositing mode before placing the image. */
  function StepCorrected<F>(s: State<F>, e: Event<F>, paint: (F, Segment) -> F): (r: State<F>)
    ensures !e.ImageLoaded? ==> r == Step(s, e, paint)
    ensures e.ImageLoaded? ==> r == Step(s.(mode := SourceOver), e, paint)
    ensures e.ImageLoaded? ==> r.board.canvas == e.placed(SourceOver) && History.Synced(r.board) && r.mode == SourceOver
  {
    match e
    case ImageLoaded(placed) => LoadImageReset(s, placed)
    case _ => Step(s, e, paint)
  }

  /** An eraser stroke (press, one move, release) followed by an image
      load. As written, the committed snapshot is the image placed in
      cut-out mode and the mode stays cut-out; on the corrected page it is the
      image placed normally. */
  lemma {:induction false} EraserThenLoadImage<F>(s: State<F>, q: Point, p: Point, placed: Composite -> F, paint: (F, Segment) -> F)
    requires s.settings.tool == Eraser
    ensures var t := Run(s, [MouseDown(q), MouseMove(p), MouseUp, ImageLoaded(placed)], paint);
      && History.Synced(t.board) && t.board.canvas == placed(DestinationOut)
      && t.board.frames[t.board.step] == placed(DestinationOut) && t.mode == DestinationOut
    ensures var u := StepCorrected(Run(s, [MouseDown(q), MouseMove(p), MouseUp], paint), ImageLoaded(placed), paint);
      && History.Synced(u.board) && u.board.frames[u.board.step] == placed(SourceOver) && u.mode == SourceOver
  {
    var s1 := Step(s, MouseDown(q), paint);
    var s2 := Step(s1, MouseMove(p), paint);
    var s3 := Step(s2, MouseUp, paint);
    assert s2.mode == DestinationOut && s3.mode == DestinationOut;
    var es := [MouseDown(q), MouseMove(p), MouseUp, ImageLoaded(placed)];
    assert Run(s, es, paint) == Run(s1, es[1..], paint);
    assert es[1..][1..] == [MouseUp, ImageLoaded(placed)];
    assert Run(s1, es[1..], paint) == Run(s2, [MouseUp, ImageLoaded(placed)], paint);
    assert Run(s2, [MouseUp, ImageLoaded(placed)], paint) == Run(s3, [ImageLoaded(placed)], paint);
    assert Run(s3, [ImageLoaded(placed)], paint) == Run(Step(s3, ImageLoaded(placed), paint), [], paint);
    var rs := [MouseDown(q), MouseMove(p), MouseUp];
    assert Run(s, rs, paint) == Run(s1, [MouseMove(p), MouseUp], paint);
    assert Run(s1, [MouseMove(p), MouseUp], paint) == Run(s2, [MouseUp], paint);
    assert Run(s2, [MouseUp], paint) == Run(s3, [], paint);
  }

  /** Mouse-up and mouse-out are the same event to the core. */
  lemma ReleasesAgree<F>(s: State<F>, paint: (F, Segment) -> F)
    ensures Step(s, MouseUp, paint) == Step(s, MouseOut, paint)
    ensures Step(s, MouseUp, paint).board == (if s.pen.isDrawing then History.SaveState(s.board) else s.board)
  {
  }

  /** A sequence of events, in order. */
  function Run<F>(s: State<F>, es: seq<Event<F>>, paint: (F, Segment) -> F): (r: State<F>)
    decreases |es|
  {
    if |es| == 0 then s else Run(Step(s, es[0], paint), es[1..], paint)
  }

  /** The cursor invariant and the capacity bound hold after every event. */
  lemma StepPreserves<F>(s: State<F>, e: Event<F>, paint: (F, Segment) -> F)
    requires History.Valid(s.board) && History.Bounded(s.board)
    ensures History.Valid(Step(s, e, paint).board) && History.Bounded(Step(s, e, paint).board)
  {
  }

  /** The cursor invariant and the capacity bound hold after any sequence of events. */
  lemma {:induction false} RunPreserves<F>(s: State<F>, es: seq<Event<F>>, paint: (F, Segment) -> F)
    requires History.Valid(s.board) && History.Bounded(s.board)
    ensures History.Valid(Run(s, es, paint).board) && History.Bounded(Run(s, es, paint).board)
    decreases |es|
  {
    if |es| > 0 {
      StepPreserves(s, es[0], paint);
      RunPreserves(Step(s, es[0], paint), es[1..], paint);
    }
  }

  /** Running two event sequences one after the other is running their concatenation. */
  lemma {:induction false} RunAppend<F>(s: State<F>, a: seq<Event<F>>, b: seq<Event<F>>, paint: (F, Segment) -> F)
    ensures Run(s, a + b, paint) == Run(Run(s, a, paint), b, paint)
    decreases |a|
  {
    if |a| == 0 {
      assert a + b == b;
    } else {
      assert (a + b)[1..] == a[1..] + b;
      RunAppend(Step(s, a[0], paint), a[1..], b, paint);
    }
  }

  /** The mouse-move events through `pts`. */
  function Moves<F>(pts: seq<Point>): (es: seq<Event<F>>)
    ensures |es| == |pts| && forall i :: 0 <= i < |pts| ==> es[i] == MouseMove(pts[i])
  {
    seq(|pts|, i requires 0 <= i < |pts| => MouseMove(pts[i]))
  }

  /** The canvas after painting `segs` in order. */
  function PaintAll<F>(canvas: F, segs: seq<Segment>, paint: (F, Segment) -> F): (r: F)
    decreases |segs|
  {
    if |segs| == 0 then canvas else PaintAll(paint(canvas, segs[0]), segs[1..], paint)
  }

  /** Mouse-moves paint exactly the traced segments, advance the pen as the
      trace does, and leave the history and the settings alone. */
  lemma {:induction false} MovesPaintTrace<F>(s: State<F>, pts: seq<Point>, paint: (F, Segment) -> F)
    ensures Run(s, Moves(pts), paint).board.frames == s.board.frames
    ensures Run(s, Moves(pts), paint).board.step == s.board.step
    ensures Run(s, Moves(pts), paint).settings == s.settings
    ensures Run(s, Moves(pts), paint).pen == Trace(s.pen, s.settings, pts).pen
    ensures Run(s, Moves(pts), paint).board.canvas
         == PaintAll(s.board.canvas, Trace(s.pen, s.settings, pts).segments, paint)
    decreases |pts|
  {
    var es: seq<Event<F>> := Moves(pts);
    if |pts| == 0 {
    } else {
      var s1 := Step(s, es[0], paint);
      assert es[1..] == Moves(pts[1..]);
      MovesPaintTrace(s1, pts[1..], paint);
      if s.pen.isDrawing {
        var t := Trace(s.pen, s.settings, pts);
        assert t.segments[1..] == Trace(s1.pen, s.settings, pts[1..]).segments;
      }
    }
  }

  /** The events of one stroke: press at `p`, move through `pts`, release. */
  function StrokeEvents<F>(p: Point, pts: seq<Point>, release: Event<F>): (es: seq<Event<F>>) {
    [MouseDown(p)] + Moves(pts) + [release]
  }

  /** The canvas a stroke from `p` through `pts` leaves on `canvas`. */
  function Stroked<F>(canvas: F, settings: Settings, p: Point, pts: seq<Point>, paint: (F, Segment) -> F): (r: F) {
    PaintAll(canvas, Trace(Pen(true, p), settings, pts).segments, paint)
  }

  /** A stroke released by mouse-up or mouse-out commits exactly one snapshot,
      the stroked canvas, exactly as one commit of that canvas on the board
      before the stroke would; a further release afterwards changes nothing. */
  lemma {:induction false} StrokeCommitsOnce<F>(s: State<F>, p: Point, pts: seq<Point>, release: Event<F>, paint: (F, Segment) -> F)
    requires release.MouseUp? || release.MouseOut?
    ensures var r := Run(s, StrokeEvents(p, pts, release), paint);
      && r.board == History.SaveState(s.board.(canvas := Stroked(s.board.canvas, s.settings, p, pts, paint)))
      && !r.pen.isDrawing
      && r.settings == s.settings
      && Step(r, MouseUp, paint) == r
      && Step(r, MouseOut, paint) == r
  {
    var s1 := StartDrawing(s, p);
    var es: seq<Event<F>> := StrokeEvents(p, pts, release);
    assert es == [MouseDown(p)] + (Moves(pts) + [release]);
    RunAppend(s, [MouseDown(p)], Moves(pts) + [release], paint);
    RunAppend(s1, Moves(pts), [release], paint);
    MovesPaintTrace(s1, pts, paint);
  }

  /** From a valid bounded history, a stroke grows the history by one snapshot,
      or keeps it at the capacity by evicting the oldest one. */
  lemma {:induction false} StrokeAddsOneEntry<F>(s: State<F>, p: Point, pts: seq<Point>, paint: (F, Segment) -> F)
    requires History.Valid(s.board) && History.Bounded(s.board)
    ensures var r := Run(s, StrokeEvents(p, pts, MouseUp), paint);
      |r.board.frames| == History.Min(s.board.step + 2, History.Capacity)
  {
    StrokeCommitsOnce(s, p, pts, MouseUp, paint);
  }

  /** A stroke from the newest snapshot below the capacity appends the
      stroked canvas to the history and moves the cursor onto it. */
  lemma {:induction false} StrokeAtTip<F>(s: State<F>, p: Point, pts: seq<Point>, paint: (F, Segment) -> F)
    requires History.Valid(s.board) && s.board.step == |s.board.frames| - 1 && |s.board.frames| < History.Capacity
    ensures var c := Stroked(s.board.canvas, s.settings, p, pts, paint);
      Run(s, StrokeEvents(p, pts, MouseUp), paint).board == History.Board(c, s.board.frames + [c], s.board.step + 1)
    ensures Run(s, StrokeEvents(p, pts, MouseUp), paint).settings == s.settings
  {
    StrokeCommitsOnce(s, p, pts, MouseUp, paint);
    History.SaveAtTip(s.board, Stroked(s.board.canvas, s.settings, p, pts, paint));
    var s1 := StartDrawing(s, p);
    RunAppend(s, [MouseDown(p)], Moves(pts) + [MouseUp], paint);
    RunAppend(s1, Moves(pts), [MouseUp], paint);
    MovesPaintTrace(s1, pts, paint);
  }

  /** Right after loading (a white canvas as the only snapshot): stroke A,
      stroke B, undo, undo, undo. The first undo shows the canvas after
      stroke A, the second the white canvas, and the third has nothing to undo. */
  lemma {:induction false} TwoStrokesThenUndo<F>(s0: State<F>, a: Point, aPts: seq<Point>, b: Point, bPts: seq<Point>, paint: (F, Segment) -> F)
    requires s0.board == History.Board(s0.board.canvas, [s0.board.canvas], 0)
    ensures
      var s1 := Run(s0, StrokeEvents(a, aPts, MouseUp), paint);
      var s2 := Run(s1, StrokeEvents(b, bPts, MouseUp), paint);
      var u1 := Step(s2, UndoClick, paint);
      var u2 := Step(u1, UndoClick, paint);
      && s1.board.canvas == Stroked(s0.board.canvas, s0.settings, a, aPts, paint)
      && History.Undo(s2.board).notice == History.UndoPerformed
      && u1.board.canvas == s1.board.canvas
      && History.Undo(u1.board).notice == History.UndoPerformed
      && u2.board.canvas == s0.board.canvas
      && History.Undo(u2.board).notice == History.NothingToUndo
  {
    var white := s0.board.canvas;
    StrokeAtTip(s0, a, aPts, paint);
    var s1 := Run(s0, StrokeEvents(a, aPts, MouseUp), paint);
    var ca := s1.board.canvas;
    assert s1.board.frames == [white, ca] && s1.board.step == 1;
    StrokeAtTip(s1, b, bPts, paint);
    var s2 := Run(s1, StrokeEvents(b, bPts, MouseUp), paint);
    assert s2.board.frames == [white, ca, s2.board.canvas] && s2.board.step == 2;
  }

  /** The invariant of every state the page reaches: a valid, bounded history,
      and, whenever no stroke is in progress and there is a snapshot, a canvas
      that shows the snapshot under the cursor. */
  ghost predicate Reachable<F>(s: State<F>) {
    && History.Valid(s.board) && History.Bounded(s.board)
    && (!s.pen.isDrawing && |s.board.frames| > 0 ==> History.Synced(s.board))
  }

  /** The page starts in the invariant, and the load handler establishes it
      from the initial state. */
  lemma LoadReachable<F>(blank: F, white: F)
    ensures Reachable(Initial(blank))
    ensures Reachable(Load(Initial(blank), white))
  {
  }

  /** The load handler keeps the invariant whatever events came before it. */
  lemma LoadKeepsReachable<F>(s: State<F>, white: F)
    requires Reachable(s)
    ensures Reachable(Load(s, white))
  {
  }

  /** Every event keeps the invariant, on the page as written and on the
      corrected page. */
  lemma StepKeepsReachable<F>(s: State<F>, e: Event<F>, paint: (F, Segment) -> F)
    requires Reachable(s)
    ensures Reachable(Step(s, e, paint))
    ensures Reachable(StepCorrected(s, e, paint))
  {
  }

  /** Any sequence of events after the load handler keeps the invariant. */
  lemma {:induction false} RunKeepsReachable<F>(s: State<F>, es: seq<Event<F>>, paint: (F, Segment) -> F)
    requires Reachable(s)
    ensures Reachable(Run(s, es, paint))
    decreases |es|
  {
    if |es| > 0 {
      StepKeepsReachable(s, es[0], paint);
      RunKeepsReachable(Step(s, es[0], paint), es[1..], paint);
    }
  }

  /** In every idle state the page reaches, with any events before the load
      event and any after it, a successful undo followed by a redo, or a
      successful redo followed by an undo, gives back the board that was
      shown. */
  lemma {:induction false} ReachedUndoRedo<F>(blank: F, white: F, pre: seq<Event<F>>, es: seq<Event<F>>, paint: (F, Segment) -> F)
    requires !Run(Load(Run(Initial(blank), pre, paint), white), es, paint).pen.isDrawing
    ensures var b := Run(Load(Run(Initial(blank), pre, paint), white), es, paint).board;
      && (b.step > 0 ==> History.Redo(History.Undo(b).board) == History.Outcome(b, History.RedoPerformed))
      && (b.step < |b.frames| - 1 ==> History.Undo(History.Redo(b).board) == History.Outcome(b, History.UndoPerformed))
  {
    LoadReachable(blank, white);
    RunKeepsReachable(Initial(blank), pre, paint);
    var s0 := Load(Run(Initial(blank), pre, paint), white);
    LoadKeepsReachable(Run(Initial(blank), pre, paint), white);
    RunKeepsReachable(s0, es, paint);
    var b := Run(s0, es, paint).board;
    if b.step > 0 {
      History.UndoThenRedo(b);
    }
    if b.step < |b.frames| - 1 {
      History.RedoThenUndo(b);
    }
  }
}

=== FILE: history.dfy ===
/** The bounded snapshot history behind undo and redo: the live canvas, the
    list of full-canvas snapshots and the cursor into it (-1 while the list is
    empty). A snapshot is an opaque value of type `F`, the type of the canvas
    itself: capturing the canvas yields its current value and restoring a
    snapshot makes it the canvas, so the pixel read-back and write-back are
    taken to be lossless (the canvas promises that only for opaque pixels). */
module History {

  /** The most snapshots the history keeps; the oldest is evicted beyond this. */
  const Capacity: nat := 50

  /** The live canvas content, the snapshot list and the cursor. */
  datatype Board<F> = Board(canvas: F, frames: seq<F>, step: int)

  /** The status message an undo or redo shows. */
  datatype Notice = UndoPerformed | NothingToUndo | RedoPerformed | NothingToRedo

  /** The board after an undo or redo, with the message shown. */
  datatype Outcome<F> = Outcome(board: Board<F>, notice: Notice)

  /** The cursor invariant: -1 exactly when there are no snapshots, an index otherwise. */
  predicate Valid<F>(b: Board<F>) {
    && (b.step == -1 <==> |b.frames| == 0)
    && -1 <= b.step < |b.frames|
  }

  /** The capacity bound. */
  predicate Bounded<F>(b: Board<F>) {
    |b.frames| <= Capacity
  }

  /** The canvas shows the snapshot under the cursor, pixel for pixel. */
  ghost predicate Synced<F>(b: Board<F>) {
    Valid(b) && b.step >= 0 && b.canvas == b.frames[b.step]
  }

  /** The board before the page has loaded: no snapshots, cursor -1. */
  function Empty<F>(canvas: F): (b: Board<F>)
    ensures Valid(b) && Bounded(b) && |b.frames| == 0
  {
    Board(canvas, [], -1)
  }

  function Min(a: int, b: int): (r: int) {
    if a <= b then a else b
  }

  function Max(a: int, b: int): (r: int) {
    if a <= b then b else a
  }

  /** The end index JavaScript's `slice(0, end)` uses on an array of length
      `len`: a negative end counts back from the length, and the result is
      clamped to `0..len`. */
  function SliceEnd(len: nat, end: int): (k: nat)
    ensures k <= len
    ensures 0 <= end <= len ==> k == end
    ensures end > len ==> k == len
    ensures end < 0 ==> k == len - Min(-end, len)
  {
    if end < 0 then Max(len + end, 0)
    else Min(end, len)
  }

  /** Commit: drop the redo branch beyond the cursor, append the captured
      canvas, point the cursor at it, and evict the oldest snapshot when the
      list has grown past the capacity.

      Whatever the board, the cursor ends on the last snapshot and that
      snapshot is the captured canvas. From a valid board the snapshots
      before the new cursor are the last ones up to the old cursor, so none
      beyond the old cursor survives, and the cursor advances by one unless
      an eviction happened. From a valid bounded board the result stays
      bounded and holds `Min(step + 2, Capacity)` snapshots. */
  function SaveState<F>(b: Board<F>): (r: Board<F>)
    ensures r.canvas == b.canvas
    ensures Valid(r) && |r.frames| >= 1 && r.step == |r.frames| - 1 && r.frames[r.step] == b.canvas
    ensures |r.frames| <= Max(|b.frames|, Capacity)
    ensures Valid(b) ==> && b.step <= r.step <= b.step + 1
                         && r.step < |r.frames|
                         && forall i :: 0 <= i < r.step ==> r.frames[i] == b.frames[b.step + 1 - r.step + i]
    ensures Valid(b) ==> (r.step == b.step + 1 <==> b.step + 2 <= Capacity)
    ensures Valid(b) && Bounded(b) ==> Bounded(r) && |r.frames| == Min(b.step + 2, Capacity)
  {
    var kept := if b.step < |b.frames| - 1 then b.frames[..SliceEnd(|b.frames|, b.step + 1)] else b.frames;
    var pushed := kept + [b.canvas];
    if |pushed| > Capacity then Board(b.canvas, pushed[1..], |pushed| - 2)
    else Board(b.canvas, pushed, |pushed| - 1)
  }

  /** Move the cursor to `target` and show that snapshot, provided `target`
      is an index of the list; otherwise nothing happens. The list itself is
      never touched. */
  function RestoreState<F>(b: Board<F>, target: int): (r: Board<F>)
    ensures r.frames == b.frames
    ensures 0 <= target < |b.frames| ==> r.step == target && Synced(r)
    ensures !(0 <= target < |b.frames|) ==> r == b
    ensures Valid(b) ==> Valid(r)
  {
    if 0 <= target < |b.frames| then Board(b.frames[target], b.frames, target)
    else b
  }

  /** Paint the canvas white and record it as a snapshot. The list is not
      cleared first. */
  function InitCanvas<F>(b: Board<F>, white: F): (r: Board<F>)
    ensures Synced(r) && r.canvas == white
    ensures Valid(b) && Bounded(b) ==> Bounded(r)
    ensures |b.frames| == 0 && Valid(b) ==> r.frames == [white] && r.step == 0
    ensures Valid(b) && b.step == |b.frames| - 1 && |b.frames| < Capacity ==> r.frames == b.frames + [white] && r.step == |b.frames|
  {
    SaveState(b.(canvas := white))
  }

  /** Undo: step the cursor back by one and show that snapshot, or report that
      there is nothing to undo and change nothing. */
  function Undo<F>(b: Board<F>): (r: Outcome<F>)
    ensures r.board.frames == b.frames
    ensures r.notice == UndoPerformed <==> b.step > 0
    ensures r.notice != UndoPerformed ==> r.notice == NothingToUndo && r.board == b
    ensures Valid(b) && b.step > 0 ==> r.board.step == b.step - 1 && Synced(r.board)
    ensures Valid(b) ==> Valid(r.board)
  {
    if b.step > 0 then Outcome(RestoreState(b, b.step - 1), UndoPerformed)
    else Outcome(b, NothingToUndo)
  }

  /** Redo: step the cursor forward by one and show that snapshot, or report
      that there is nothing to redo and change nothing. */
  function Redo<F>(b: Board<F>): (r: Outcome<F>)
    ensures r.board.frames == b.frames
    ensures r.notice == RedoPerformed <==> b.step < |b.frames| - 1
    ensures r.notice != RedoPerformed ==> r.notice == NothingToRedo && r.board == b
    ensures Valid(b) && b.step < |b.frames| - 1 ==> r.board.step == b.step + 1 && Synced(r.board)
    ensures Valid(b) ==> Valid(r.board)
  {
    if b.step < |b.frames| - 1 then Outcome(RestoreState(b, b.step + 1), RedoPerformed)
    else Outcome(b, NothingToRedo)
  }

  /** A successful undo followed by a redo brings back the board that was shown. */
  lemma UndoThenRedo<F>(b: Board<F>)
    requires Synced(b) && b.step > 0
    ensures Undo(b).notice == UndoPerformed
    ensures Redo(Undo(b).board) == Outcome(b, RedoPerformed)
  {
  }

  /** A successful redo followed by an undo brings back the board that was shown. */
  lemma RedoThenUndo<F>(b: Board<F>)
    requires Synced(b) && b.step < |b.frames| - 1
    ensures Redo(b).notice == RedoPerformed
    ensures Undo(Redo(b).board) == Outcome(b, UndoPerformed)
  {
  }

  /** Right after a commit there is nothing to redo, whatever was undone before. */
  lemma SaveDropsRedo<F>(b: Board<F>)
    ensures Redo(SaveState(b)) == Outcome(SaveState(b), NothingToRedo)
  {
  }

  /** Committing after an undo keeps the snapshots up to the new cursor and
      discards the undone ones: the list becomes those snapshots plus the
      new canvas. */
  lemma {:induction false} UndoThenSave<F>(b: Board<F>, f: F)
    requires Valid(b) && Bounded(b) && b.step > 0
    ensures SaveState(Undo(b).board.(canvas := f)).frames == b.frames[..b.step] + [f]
  {
    var u := Undo(b).board.(canvas := f);
    var r := SaveState(u);
    assert u.step == b.step - 1;
    assert |r.frames| == b.step + 1;
    assert r.frames[..r.step] == b.frames[..b.step];
    assert r.frames == r.frames[..r.step] + [f];
  }

  /** A commit from the newest snapshot below the capacity appends the canvas
      and moves the cursor onto it. */
  lemma {:induction false} SaveAtTip<F>(b: Board<F>, f: F)
    requires Valid(b) && b.step == |b.frames| - 1 && |b.frames| < Capacity
    ensures SaveState(b.(canvas := f)) == Board(f, b.frames + [f], b.step + 1)
  {
    var r := SaveState(b.(canvas := f));
    assert r.frames == r.frames[..r.step] + [f];
  }

  /** Committing a new canvas from a synced board and then undoing shows the
      canvas of before the commit again. */
  lemma {:induction false} SaveThenUndo<F>(b: Board<F>, f: F)
    requires Synced(b)
    ensures Undo(SaveState(b.(canvas := f))).notice == UndoPerformed
    ensures Undo(SaveState(b.(canvas := f))).board.canvas == b.canvas
  {
    var r := SaveState(b.(canvas := f));
    assert r.step >= 1;
    assert r.frames[r.step - 1] == r.frames[..r.step][r.step - 1];
  }

  /** The last `n` elements of `s`, or all of `s` when it is shorter. */
  function Last<T>(s: seq<T>, n: nat): (r: seq<T>)
    ensures |r| == Min(|s|, n)
    ensures forall i :: 0 <= i < |r| ==> r[i] == s[|s| - |r| + i]
  {
    s[|s| - Min(|s|, n)..]
  }

  /** Taking the last `n` elements of a suffix that is at least that long
      changes nothing. */
  lemma LastOfSuffix<T>(v: seq<T>, k: nat, n: nat)
    requires k <= |v| && |v| - k >= Min(|v|, n)
    ensures Last(v[k..], n) == Last(v, n)
  {
  }

  /** Truncating to the last `n` before appending does not change the last `n`
      after appending. */
  lemma LastOfLast<T>(s: seq<T>, t: seq<T>, n: nat)
    ensures Last(Last(s, n) + t, n) == Last(s + t, n)
  {
    var k := |s| - Min(|s|, n);
    assert Last(s, n) + t == (s + t)[k..];
    LastOfSuffix(s + t, k, n);
  }

  /** One commit from the newest snapshot keeps the newest `Capacity` snapshots
      of the list extended by the canvas. */
  lemma {:induction false} SaveKeepsNewest<F>(b: Board<F>, f: F)
    requires Valid(b) && Bounded(b) && b.step == |b.frames| - 1
    ensures SaveState(b.(canvas := f)).frames == Last(b.frames + [f], Capacity)
    ensures Valid(SaveState(b.(canvas := f))) && Bounded(SaveState(b.(canvas := f)))
  {
    var r := SaveState(b.(canvas := f));
    assert r.frames == r.frames[..r.step] + [f];
  }

  /** Commits the canvases `fs` one after another. */
  function CommitAll<F>(b: Board<F>, fs: seq<F>): (r: Board<F>)
    decreases |fs|
  {
    if |fs| == 0 then b else CommitAll(SaveState(b.(canvas := fs[0])), fs[1..])
  }

  /** Committing from the newest snapshot keeps exactly the newest `Capacity`
      canvases in order, oldest evicted first, with the cursor on the last. */
  lemma {:induction false} CommitAllKeepsNewest<F>(b: Board<F>, fs: seq<F>)
    requires Valid(b) && Bounded(b) && b.step == |b.frames| - 1
    ensures CommitAll(b, fs).frames == Last(b.frames + fs, Capacity)
    ensures CommitAll(b, fs).step == |CommitAll(b, fs).frames| - 1
    decreases |fs|
  {
    if |fs| == 0 {
      assert b.frames + fs == b.frames;
    } else {
      var b1 := SaveState(b.(canvas := fs[0]));
      SaveKeepsNewest(b, fs[0]);
      assert CommitAll(b, fs) == CommitAll(b1, fs[1..]);
      CommitAllKeepsNewest(b1, fs[1..]);
      LastOfLast(b.frames + [fs[0]], fs[1..], Capacity);
      assert b.frames + [fs[0]] + fs[1..] == b.frames + fs;
    }
  }

  /** After the first snapshot and `N` commits the history holds
      `Min(N + 1, Capacity)` snapshots: the newest ones, oldest first. */
  lemma {:induction false} InitThenCommits<F>(canvas: F, white: F, fs: seq<F>)
    ensures CommitAll(InitCanvas(Empty(canvas), white), fs).frames == Last([white] + fs, Capacity)
    ensures |CommitAll(InitCanvas(Empty(canvas), white), fs).frames| == Min(|fs| + 1, Capacity)
  {
    CommitAllKeepsNewest(InitCanvas(Empty(canvas), white), fs);
  }
}

=== FILE: stroke.dfy ===
/** The pointer-stroke state machine of the drawing surface: whether a stroke
    is in progress and the last pointer position, advanced by mouse-down,
    mouse-move and mouse-up/mouse-out, together with the line segment every
    move emits under the live toolbar settings.

    Rasterisation is not modelled: a segment is an abstract record of what
    the canvas is asked to stroke. */
module Stroke {

  datatype Point = Point(x: int, y: int)

  datatype Tool = Brush | Eraser

  /** The canvas compositing mode a segment is stroked with. */
  datatype Composite = SourceOver | DestinationOut

  /** The live toolbar settings: current tool, colour, brush width and eraser width. */
  datatype Settings = Settings(tool: Tool, color: string, brushSize: int, eraserSize: int)

  /** The settings the page starts with. */
  const InitialSettings := Settings(Brush, "#FF0000", 5, 20)

  /** The stroke colour the eraser sets; irrelevant to the pixels under `DestinationOut`. */
  const EraserColor := "#FFFFFF"

  /** One `moveTo`/`lineTo`/`stroke` request issued to the canvas. */
  datatype Segment = Segment(from: Point, to: Point, color: string, width: int, mode: Composite)

  /** `isDrawing` and the last point (`lastX`, `lastY`). */
  datatype Pen = Pen(isDrawing: bool, last: Point)

  const InitialPen := Pen(false, Point(0, 0))

  /** The result of a mouse-move: nothing when no stroke is active, otherwise
      the emitted segment and the advanced pen. */
  datatype Move = Ignored | Drew(segment: Segment, pen: Pen)

  /** The result of a mouse-up or mouse-out: the pen afterwards and whether
      the stroke is committed to the history. */
  datatype Release = Release(pen: Pen, commit: bool)

  /** Mouse-down: a stroke becomes active and starts at `p`. */
  function Start(pen: Pen, p: Point): (r: Pen)
    ensures r.isDrawing
    ensures r.last == p
  {
    Pen(true, p)
  }

  /** The segment from `from` to `to` under the live settings: the brush paints
      normally with the chosen colour and brush width, the eraser cuts out with
      its own width whatever colour is chosen. */
  function SegmentFor(s: Settings, from: Point, to: Point): (seg: Segment)
    ensures seg.from == from && seg.to == to
    ensures s.tool == Brush ==> seg.color == s.color && seg.width == s.brushSize && seg.mode == SourceOver
    ensures s.tool == Eraser ==> seg.color == EraserColor && seg.width == s.eraserSize && seg.mode == DestinationOut
  {
    match s.tool
    case Brush => Segment(from, to, s.color, s.brushSize, SourceOver)
    case Eraser => Segment(from, to, EraserColor, s.eraserSize, DestinationOut)
  }

  /** An eraser segment does not depend on the chosen colour or brush width. */
  lemma EraserIgnoresColor(s: Settings, color: string, brushSize: int, from: Point, to: Point)
    requires s.tool == Eraser
    ensures SegmentFor(s, from, to) == SegmentFor(s.(color := color, brushSize := brushSize), from, to)
    ensures SegmentFor(s, from, to).mode == DestinationOut
  {
  }

  /** Mouse-move: ignored unless a stroke is active; otherwise one segment from
      the last point to `p`, after which `p` is the last point. */
  function Advance(pen: Pen, s: Settings, p: Point): (r: Move)
    ensures r.Ignored? <==> !pen.isDrawing
    ensures r.Drew? ==> r.segment == SegmentFor(s, pen.last, p)
    ensures r.Drew? ==> r.pen.isDrawing && r.pen.last == p
  {
    if !pen.isDrawing then Ignored
    else Drew(SegmentFor(s, pen.last, p), Pen(true, p))
  }

  /** Mouse-up or mouse-out: the stroke ends, and it is committed exactly when
      one was active. */
  function Stop(pen: Pen): (r: Release)
    ensures !r.pen.isDrawing && r.pen.last == pen.last
    ensures r.commit <==> pen.isDrawing
    ensures !pen.isDrawing ==> r.pen == pen
  {
    if pen.isDrawing then Release(Pen(false, pen.last), true)
    else Release(pen, false)
  }

  /** The pen after a run of mouse-moves and the segments they emitted, in order. */
  datatype Traced = Traced(pen: Pen, segments: seq<Segment>)

  /** A run of mouse-moves through `pts`. During an active stroke the segments
      form a chain: the first starts at the pen's last point, each later one
      starts where the previous ended, and the pen ends at the final point.
      Without an active stroke nothing is emitted and the pen is unchanged. */
  function Trace(pen: Pen, s: Settings, pts: seq<Point>): (r: Traced)
    ensures !pen.isDrawing ==> r == Traced(pen, [])
    ensures pen.isDrawing ==> r.pen.isDrawing
    ensures pen.isDrawing ==> r.pen.last == if |pts| == 0 then pen.last else pts[|pts| - 1]
    ensures pen.isDrawing ==> && |r.segments| == |pts|
                              && forall i :: 0 <= i < |pts| ==>
                                   r.segments[i] == SegmentFor(s, if i == 0 then pen.last else pts[i - 1], pts[i])
    decreases |pts|
  {
    if |pts| == 0 then Traced(pen, [])
    else
      match Advance(pen, s, pts[0])
      case Ignored => Traced(pen, [])
      case Drew(seg, next) =>
        var rest := Trace(next, s, pts[1..]);
        Traced(rest.pen, [seg] + rest.segments)
  }
}
